=== FILE: README.md ===
# mv-listbox node, modelled in Dafny

`mv-listbox` is a LitElement web component. One element class plays one of
five roles, chosen by boolean flags: a list container, a label, a collapsible
group, a leaf item or a footer. A node with no flag renders nothing. Nesting
these elements builds an accordion-style list. Each node has an open/closed
flag that starts out unset. Attachment initialises `open` for a group or
list if it is still unset, and leaves every other role's `open` as it was.
Once rendered, a container turns a click on its header into
`select-header`, and a group turns a click on its row into `select-group`,
after toggling `open`. A selectable item, one with a truthy value that is not
disabled, turns a click into `select-item`; any other item swallows the click
and sends nothing. Each notification carries the node's own `value`.

The project models this node as an immutable record plus pure transition
functions:

- `js_values.dfy` (module `JsValues`): `Option` for a property that may still be
  `undefined`, a small JavaScript value type for the opaque `value` payload, and
  ECMAScript truthiness (`!!value`, `open ? … : …`).
- `listbox_node.dfy` (module `ListboxNode`): the `Node` record. Its role flags
  `isList`, `isLabel`, `isGroup`, `isItem` and `isFooter` stand for the element
  properties `list`, `label`, `group`, `item` and `footer`; `label` is a Dafny
  keyword. The module also holds the constructor defaults (`New`), the
  first-match role dispatch (`RoleOf`, `Render`), `connectedCallback`
  (`Connect`), the three click handlers, and `Click`, which runs the handler
  that the rendered template binds.
- `listbox_properties.dfy` (module `ListboxProperties`): lemmas that relate these
  operations. They cover precedence among several flags, idempotence of
  rendering and attachment, two group clicks undoing each other, `custom`
  having no effect, and the item's selection condition.
- `listbox_trace.dfy` (module `ListboxTrace`): a run of attachments and clicks on
  one node, each handled completely before the next. An attachment runs
  `connectedCallback` and then the render that its call into the framework
  triggers, so a label or footer claims its slot. A run tracks whether the
  node is attached: the click handlers exist only in rendered content, so a
  click before the first attachment does nothing. Inductive lemmas cover
  what never changes, which events come out and with which value, how many
  there are, and the parity law for a group's `open`.

Rendering is reduced to a `Shape`:
- the container's themed wrapper;
- a label or footer pass-through;
- a group row with its `open`/`close` class and whether the nested-content slot is present;
- an item row;
- nothing.

`render` also calls `setAttribute("slot", …)`. The model shows this as
`Render` returning the node with its `slot` field set.

Two facts of the code that a reader might not expect:

- `custom` is initialised (mv-listbox.js:137) and destructured
  (mv-listbox.js:142), but nothing reads it. `handleOpenMenu` always toggles
  and never stops propagation. `ListboxProperties.GroupClickIgnoresCustom`
  states this.
- The list template never reads `open`, because `openClass` is used only by
  the group row. A node that is both list and group renders as a container,
  but attachment sets its `open` to `false`, because `Connect` negates the
  group flag (`ListboxProperties.FirstAttachment`).

## Model

| member | source | states |
|---|---|---|
| `JsValues.FalsyValues` | mv-listbox.js:217 | the item's `!!value` test is false for exactly `undefined`, `null`, `false`, `0`, `NaN` and `""` |
| `JsValues.NegateUndefined` | mv-listbox.js:209 | `!open` is true exactly when `open` is unset or `false`, so an unset `open` toggles to `true` |
| `ListboxNode.New` | mv-listbox.js:133-139 | a constructed node has no role flag, `disabled`, `selected` and `custom` false, theme `"light"`, and `open`, `value` and `slot` unset |
| `ListboxNode.RoleOf` | mv-listbox.js:144-189 | the role is one whose flag is set, and no flag earlier in the order list, label, group, item, footer is set; it is "no role" exactly when no flag is set |
| `ListboxNode.Render` | mv-listbox.js:141-189 | the shape belongs to the first-match role; the container carries the theme; a group shows its body iff `open` is truthy, with class `"open"` or else `"close"`; label and footer move themselves into the `"listbox-label"` and `"footer"` slots, other roles keep their slot, and nothing else on the node changes |
| `ListboxNode.Connect` | mv-listbox.js:192-198 | attachment changes `open` iff it is unset and the node is a group or list, and then sets it to the negation of the group flag; every other field is unchanged |
| `ListboxNode.ClickHeader` | mv-listbox.js:200-205 | a header click leaves the node unchanged, dispatches exactly one `select-header` with the container's own value (a listener sees `open` as it was), and does not stop propagation |
| `ListboxNode.ClickGroup` | mv-listbox.js:207-213 | a group click defines `open` as the negation of its truthiness and changes no other field; then it dispatches exactly one `select-group` with the group's value, so a listener already sees the toggled `open`; it does not stop propagation |
| `ListboxNode.ClickItem` | mv-listbox.js:215-224 | an item click never changes the node; it dispatches one `select-item` with the item's value (a listener sees `open` unchanged) iff the value is truthy and the item is not disabled, and it stops propagation exactly when it dispatches nothing |
| `ListboxNode.Click` | mv-listbox.js:144-184 | a click runs the handler the rendered template binds: the header handler for a container, the toggle for a group, the item handler for an item; labels, footers and role-less nodes bind none and do nothing |
| `ListboxProperties.ListWinsOverGroup` | mv-listbox.js:144-164 | a node flagged both list and group renders as the themed container and its click is the header click |
| `ListboxProperties.LabelWinsOverLaterFlags` | mv-listbox.js:161-163 | a label flag outranks group, item and footer: the node passes through into the label slot and binds no handler |
| `ListboxProperties.NoRoleIsInert` | mv-listbox.js:189 | a node without role flags renders empty, is unchanged by attachment and ignores clicks |
| `ListboxProperties.RenderIdempotent` | mv-listbox.js:161-187 | rendering an already rendered node gives the same shape and node again |
| `ListboxProperties.SlotAssignedOnlyByLabelAndFooter` | mv-listbox.js:161-187 | only label and footer nodes change their slot, and only to the label or footer slot |
| `ListboxProperties.ConnectIdempotent` | mv-listbox.js:192-198 | a second attachment changes nothing, and after attachment every group or list has a defined `open` |
| `ListboxProperties.FirstAttachment` | mv-listbox.js:192-198 | on first attachment a group becomes closed and renders without its body; a list alone becomes open; a list that is also a group becomes closed |
| `ListboxProperties.UnsetOpenRendersClosed` | mv-listbox.js:143 | a group with `open` unset renders the same collapsed row, class `"close"` with no body, as a closed group |
| `ListboxProperties.GroupClickTwice` | mv-listbox.js:207-213 | two group clicks restore a defined `open` and leave an unset one as `false`; both clicks announce `select-group` with the same value, and a listener sees the negated state during the first and the original truthiness during the second |
| `ListboxProperties.GroupClickIgnoresCustom` | mv-listbox.js:137-142 | changing `custom` changes nothing in a group click's outcome except the `custom` field itself |
| `ListboxProperties.ItemClickIff` | mv-listbox.js:215-224 | clicking an item dispatches `[select-item(value)]` iff the value is truthy and the item is enabled; otherwise nothing is dispatched and the click is stopped |
| `ListboxProperties.ClickChangesOnlyGroupOpen` | mv-listbox.js:144-224 | a click changes only `open`, only a group changes at all, and only an item can stop propagation |
| `ListboxProperties.FreshNodeIsInert` | mv-listbox.js:133-139 | a freshly constructed node renders nothing, stays unset on attachment and ignores clicks |
| `ListboxProperties.NestedScenario` | mv-listbox.js:192-224 | the container, group and item of one nested example attach and react as follows: the container opens, the group opens and announces `{id:1}`, the item announces `{id:1}`, and the disabled item is stopped |
| `ListboxTrace.RunKeepsConfiguration` | mv-listbox.js:161-224 | no sequence of attachments and clicks changes anything about a node except `open` and `slot`, and its role stays the same; `slot` changes only if the node was attached, and then a label gets `"listbox-label"`, a footer gets `"footer"`, and every other role keeps its slot, because attachment renders the node |
| `ListboxTrace.RunEventsCarryOwnValue` | mv-listbox.js:200-224 | every event of a run has the name its role's handler dispatches and carries the node's own value; labels, footers and role-less nodes dispatch none |
| `ListboxTrace.RunEventCount` | mv-listbox.js:200-224 | containers and groups dispatch one event per click made while attached; so does a selectable item; an unselectable item dispatches none and swallows every such click; clicks before the first attachment reach nothing |
| `ListboxTrace.GroupOpenParity` | mv-listbox.js:192-213 | a group that is never attached keeps the host's `open`; otherwise, however attachments and clicks interleave, `open` is its initial truthiness flipped once per click made while attached |
| `ListboxTrace.NonGroupOpenFixedByAttach` | mv-listbox.js:192-198 | for every role but group, clicks never touch `open`: after a run it is what attachment set, or the host's value if the node was never attached |
| `ListboxTrace.ClickBeforeAttachIsIgnored` | mv-listbox.js:192-213 | a group clicked before its first attachment stays unset and dispatches nothing; attached and then clicked, it opens and announces its value |

## Left out

- The stylesheet in `static get styles` (mv-listbox.js:21-130) is pure presentation.
- Lit templating, slot projection, re-rendering on property change and attribute
  reflection are left out: a render is the `Shape` together with the `slot`
  attribute.
- The `customElements.define` registration (mv-listbox.js:227) is left out, since it is global framework plumbing.
- The property declarations (mv-listbox.js:4-18) declare `disabled`, `selected`
  and `custom` neither as properties nor as attributes. The model treats all
  fields as plain values that the host sets.
- DOM event bubbling between nested nodes is not modelled. A handler's effect
  on bubbling is only the `stopped` flag, and whether an ancestor row reacts
  afterwards is not modelled.
- The `select-*` events are created without `bubbles: true` (mv-listbox.js:203,
  211, 219), so in the source they reach only listeners on the dispatching
  element itself and never an ancestor. The model keeps them as the node's
  emitted list and states nothing about who receives them.
- `originalEvent` in each event's `detail` is left out: it is the raw DOM
  event, and the model keeps only the event name, `value`, and the `open` a
  listener sees during dispatch.
- `ListboxTrace.Run` assumes nothing writes to the node while an event is
  dispatched or between actions. In the source a `select-*` listener runs
  synchronously inside the handler and could write to the node, for example
  set `disabled` from a `select-item` listener, and the host can write any
  property at any time. Such writes would invalidate the run lemmas, for
  example "one `select-item` per click" in `ListboxTrace.RunEventCount`. The
  model covers runs made only of attachments and clicks.
- Clicks on a container outside its header region reach no handler of the
  container. `Click` models only a click on the element that carries a
  handler.
- `selected` is stored and nothing in the core reads it, so no operation depends on it.
- `theme` is passed to children only by template bindings in the consumer, so it is modelled only as the string the container shape carries.
- `JsValues.JsValue` gives numbers as integers and leaves out fractions, `-0`,
  BigInt and symbols. Only truthiness matters to the core, and those values
  would not change which payloads are truthy.
- demo.js is left out entirely. It is consumer wiring: a theme radio button,
  a JSON data import, buttons that call `alert`, and a `Set`-based
  de-duplication of job names.

=== FILE: js_values.dfy ===
/** The few JavaScript value notions the listbox node depends on: a property
    that may still be `undefined`, and the truthiness test that `!!value` and
    `open ? … : …` perform. */
module JsValues {

  /** A property slot that holds nothing (`undefined`) until it is assigned. */
  datatype Option<T> = None | Some(value: T)

  /** An application payload. Objects are opaque and known only by identity;
      numbers are integers (see README for what that leaves out). */
  datatype JsValue =
    | Undefined
    | Null
    | Bool(b: bool)
    | Num(n: int)
    | NaN
    | Str(s: string)
    | Obj(id: nat)

  /** ECMAScript ToBoolean on the values `JsValue` represents: `undefined`,
      `null`, `false`, `0`, `NaN` and the empty string are falsy; every other
      value, every object included, is truthy. */
  predicate Truthy(v: JsValue) {
    match v
    case Undefined => false
    case Null => false
    case Bool(b) => b
    case Num(n) => n != 0
    case NaN => false
    case Str(s) => s != ""
    case Obj(_) => true
  }

  /** JavaScript truthiness of a boolean property that may be `undefined`. */
  predicate TruthyOpt(o: Option<bool>) {
    match o
    case None => false
    case Some(b) => b
  }

  /** The falsy values among those `JsValue` represents are exactly these six. */
  lemma FalsyValues(v: JsValue)
    ensures !Truthy(v) <==> v in {Undefined, Null, Bool(false), Num(0), NaN, Str("")}
  {
  }

  /** `!o` on an optional boolean: `!undefined` is `true`. */
  lemma NegateUndefined(o: Option<bool>)
    ensures !TruthyOpt(o) <==> (o == None || o == Some(false))
  {
  }
}

=== FILE: listbox_node.dfy ===
/** The `mv-listbox` element: one node type that plays one of five roles
    according to its boolean role flags, keeps an open/closed flag, and turns
    clicks into `select-*` notifications. Every operation is a pure function
    from the node's fields to its new fields and what it emits. */
module ListboxNode {
  import opened JsValues

  /** The element's fields. The role flags default to `false` (they are
      `undefined`, hence falsy, until the host sets them); `slot` is the
      element's `slot` attribute, which rendering may assign. */
  datatype Node = Node(
    isList: bool,
    isLabel: bool,
    isGroup: bool,
    isItem: bool,
    isFooter: bool,
    open: Option<bool>,
    value: JsValue,
    disabled: bool,
    selected: bool,
    custom: bool,
    theme: string,
    slot: Option<string>
  )

  /** The role a node renders as, the first set flag in declaration order. */
  datatype Role = List | Label | Group | Item | Footer | NoRole

  /** Position of a role in the dispatch order; `NoRole` comes last. */
  function Rank(r: Role): nat {
    match r
    case List => 0
    case Label => 1
    case Group => 2
    case Item => 3
    case Footer => 4
    case NoRole => 5
  }

  /** Whether the flag that selects role `r` is set on `n`. */
  predicate Flag(n: Node, r: Role) {
    match r
    case List => n.isList
    case Label => n.isLabel
    case Group => n.isGroup
    case Item => n.isItem
    case Footer => n.isFooter
    case NoRole => false
  }

  /** Whether any of the five role flags is set. */
  predicate HasRoleFlag(n: Node) {
    n.isList || n.isLabel || n.isGroup || n.isItem || n.isFooter
  }

  const LightTheme: string := "light"
  const LabelSlot: string := "listbox-label"
  const FooterSlot: string := "footer"
  const OpenClass: string := "open"
  const CloseClass: string := "close"

  const SelectHeader: string := "select-header"
  const SelectGroup: string := "select-group"
  const SelectItem: string := "select-item"

  /** The element as the constructor leaves it: no role, `open` and `value`
      unset, not disabled, not selected, not custom, light theme. */
  function New(): (n: Node)
    ensures !HasRoleFlag(n)
    ensures !n.disabled && !n.selected && !n.custom
    ensures n.theme == LightTheme
    ensures n.open == None && n.value == Undefined && n.slot == None
  {
    Node(false, false, false, false, false, None, Undefined, false, false, false, LightTheme, None)
  }

  /** The role `render` selects: the first of list, label, group, item,
      footer whose flag is set. */
  function RoleOf(n: Node): (r: Role)
    ensures r != NoRole ==> Flag(n, r)
    ensures forall q: Role :: Rank(q) < Rank(r) ==> !Flag(n, q)
    ensures r == NoRole <==> !HasRoleFlag(n)
  {
    if n.isList then List
    else if n.isLabel then Label
    else if n.isGroup then Group
    else if n.isItem then Item
    else if n.isFooter then Footer
    else NoRole
  }

  /** Whether a group shows its nested content: `open` truthy, an unset
      `open` counting as closed. */
  predicate IsOpen(n: Node) {
    TruthyOpt(n.open)
  }

  /** What `render` produces, reduced to its shape: the container's themed
      wrapper, a label or footer pass-through, a group row with its class and
      whether the nested-content slot is present, an item row, or nothing. */
  datatype Shape =
    | ContainerShape(theme: string)
    | LabelPassThrough
    | GroupRow(rowClass: string, bodyShown: bool)
    | ItemRow
    | FooterPassThrough
    | Empty

  /** The role whose template produced a shape. */
  function ShapeRole(s: Shape): Role {
    match s
    case ContainerShape(_) => List
    case LabelPassThrough => Label
    case GroupRow(_, _) => Group
    case ItemRow => Item
    case FooterPassThrough => Footer
    case Empty => NoRole
  }

  /** A render: the shape returned and the node after `render` has set its
      own `slot` attribute (label and footer only). */
  datatype Rendered = Rendered(shape: Shape, node: Node)

  function Render(n: Node): (r: Rendered)
    ensures ShapeRole(r.shape) == RoleOf(n)
    ensures r.shape.ContainerShape? ==> r.shape.theme == n.theme
    ensures r.shape.GroupRow? ==> (r.shape.bodyShown <==> IsOpen(n))
    ensures r.shape.GroupRow? ==> r.shape.rowClass == (if IsOpen(n) then OpenClass else CloseClass)
    ensures r.node == n.(slot := r.node.slot)
    ensures RoleOf(n) == Label ==> r.node.slot == Some(LabelSlot)
    ensures RoleOf(n) == Footer ==> r.node.slot == Some(FooterSlot)
    ensures RoleOf(n) != Label && RoleOf(n) != Footer ==> r.node.slot == n.slot
  {
    var openClass := if IsOpen(n) then OpenClass else CloseClass;
    if n.isList then Rendered(ContainerShape(n.theme), n)
    else if n.isLabel then Rendered(LabelPassThrough, n.(slot := Some(LabelSlot)))
    else if n.isGroup then Rendered(GroupRow(openClass, IsOpen(n)), n)
    else if n.isItem then Rendered(ItemRow, n)
    else if n.isFooter then Rendered(FooterPassThrough, n.(slot := Some(FooterSlot)))
    else Rendered(Empty, n)
  }

  /** `connectedCallback`: the first attachment of a group or a list gives it
      a defined `open`, closed for a group and open for a list alone. */
  function Connect(n: Node): (m: Node)
    ensures m == n.(open := m.open)
    ensures m.open != n.open <==> n.open == None && (n.isGroup || n.isList)
    ensures m.open != n.open ==> m.open == Some(!n.isGroup)
  {
    if n.open == None && (n.isGroup || n.isList) then n.(open := Some(!n.isGroup)) else n
  }

  /** A notification dispatched by the node: its type, `detail.value`, and
      the node's `open` as a listener reading the node sees it during the
      synchronous dispatch. The raw triggering event it also carries is not
      modelled. */
  datatype Event = Event(name: string, value: JsValue, openSeen: Option<bool>)

  /** The effect of one click handler: the node afterwards, the events it
      dispatched in order, and whether it stopped the click's propagation. */
  datatype Outcome = Outcome(node: Node, events: seq<Event>, stopped: bool)

  /** `handleHeaderClick`: announce the container's own value. */
  function ClickHeader(n: Node): (o: Outcome)
    ensures o.node == n
    ensures o.events == [Event(SelectHeader, n.value, n.open)]
    ensures !o.stopped
  {
    Outcome(n, [Event(SelectHeader, n.value, n.open)], false)
  }

  /** `handleOpenMenu`: flip `open` (an unset `open` becomes `true`), then
      announce the group's value, so a listener already sees the new `open`;
      `custom` plays no part. */
  function ClickGroup(n: Node): (o: Outcome)
    ensures o.node == n.(open := o.node.open)
    ensures o.node.open.Some? && (IsOpen(o.node) <==> !IsOpen(n))
    ensures o.events == [Event(SelectGroup, n.value, o.node.open)]
    ensures !o.stopped
  {
    var toggled := n.(open := Some(!TruthyOpt(n.open)));
    Outcome(toggled, [Event(SelectGroup, n.value, toggled.open)], false)
  }

  /** Whether an item reacts to clicks: a truthy value and not disabled. */
  predicate Selectable(n: Node) {
    Truthy(n.value) && !n.disabled
  }

  /** `handleItemClick`: a selectable item announces its value; any other
      item swallows the click instead. The node never changes. */
  function ClickItem(n: Node): (o: Outcome)
    ensures o.node == n
    ensures |o.events| <= 1
    ensures |o.events| == 1 <==> Selectable(n)
    ensures forall e :: e in o.events ==> e == Event(SelectItem, n.value, n.open)
    ensures o.stopped <==> o.events == []
  {
    if Truthy(n.value) && !n.disabled then
      Outcome(n, [Event(SelectItem, n.value, n.open)], false)
    else
      Outcome(n, [], true)
  }

  /** The click handlers the templates bind. */
  datatype Handler = HeaderHandler | OpenMenuHandler | ItemHandler

  /** The handler bound in a rendered shape: the container's header region,
      the group row and the item row; the other shapes bind none. */
  function BoundHandler(s: Shape): Option<Handler> {
    match s
    case ContainerShape(_) => Some(HeaderHandler)
    case GroupRow(_, _) => Some(OpenMenuHandler)
    case ItemRow => Some(ItemHandler)
    case LabelPassThrough => None
    case FooterPassThrough => None
    case Empty => None
  }

  function RunHandler(n: Node, h: Handler): Outcome {
    match h
    case HeaderHandler => ClickHeader(n)
    case OpenMenuHandler => ClickGroup(n)
    case ItemHandler => ClickItem(n)
  }

  /** A click on the element the node's template binds a handler to; a node
      whose template binds none neither changes nor emits. */
  function Click(n: Node): (o: Outcome)
    ensures RoleOf(n) == List ==> o == ClickHeader(n)
    ensures RoleOf(n) == Group ==> o == ClickGroup(n)
    ensures RoleOf(n) == Item ==> o == ClickItem(n)
    ensures RoleOf(n) in {Label, Footer, NoRole} ==> o == Outcome(n, [], false)
  {
    match BoundHandler(Render(n).shape)
    case Some(h) => RunHandler(n, h)
    case None => Outcome(n, [], false)
  }
}

=== FILE: listbox_properties.dfy ===
/** Properties of one listbox node that relate several of its operations:
    dispatch precedence, lazy initialisation of `open`, and the click
    handlers' effect on `open` and on what is announced. */
module ListboxProperties {
  import opened JsValues
  import opened ListboxNode

  /** A node with several role flags renders as the earliest one: a list
      that is also a group is a container, and binds the header handler. */
  lemma ListWinsOverGroup(n: Node)
    requires n.isList && n.isGroup
    ensures Render(n).shape == ContainerShape(n.theme)
    ensures Click(n) == ClickHeader(n)
  {
  }

  /** A label flag takes precedence over every later flag, so such a node
      always moves itself into the label slot and binds no handler. */
  lemma LabelWinsOverLaterFlags(n: Node)
    requires !n.isList && n.isLabel
    ensures Render(n).shape == LabelPassThrough
    ensures Render(n).node.slot == Some(LabelSlot)
    ensures Click(n) == Outcome(n, [], false)
  {
  }

  /** A node with no role flag renders nothing, keeps its attributes, and
      ignores attachment and clicks. */
  lemma NoRoleIsInert(n: Node)
    requires !HasRoleFlag(n)
    ensures Render(n) == Rendered(Empty, n)
    ensures Connect(n) == n
    ensures Click(n) == Outcome(n, [], false)
  {
  }

  /** Rendering twice is rendering once: the slot a label or footer assigns
      itself is already in place on the second pass. */
  lemma RenderIdempotent(n: Node)
    ensures Render(Render(n).node) == Render(n)
  {
  }

  /** Only label and footer nodes assign a slot to themselves: the label slot
      of the enclosing container or group, and the container's footer slot. */
  lemma SlotAssignedOnlyByLabelAndFooter(n: Node)
    ensures Render(n).node.slot != n.slot ==> RoleOf(n) == Label || RoleOf(n) == Footer
    ensures Render(n).node.slot != n.slot ==> Render(n).node.slot in {Some(LabelSlot), Some(FooterSlot)}
  {
  }

  /** Attachment defines `open` for every group or list, and attaching again
      changes nothing. */
  lemma ConnectIdempotent(n: Node)
    ensures Connect(Connect(n)) == Connect(n)
    ensures n.isGroup || n.isList ==> Connect(n).open.Some?
  {
  }

  /** A freshly attached group renders collapsed, a freshly attached list
      alone is open, and a freshly attached list that is also a group is
      closed although it renders as a container. */
  lemma FirstAttachment(n: Node)
    requires n.open == None
    ensures RoleOf(n) == Group ==> Render(Connect(n)).shape == GroupRow(CloseClass, false)
    ensures n.isList && !n.isGroup ==> Connect(n).open == Some(true)
    ensures n.isList && n.isGroup ==> Connect(n).open == Some(false)
  {
  }

  /** An unset `open` renders a group exactly as a closed one does. */
  lemma UnsetOpenRendersClosed(n: Node)
    requires RoleOf(n) == Group
    ensures Render(n.(open := None)).shape == Render(n.(open := Some(false))).shape == GroupRow(CloseClass, false)
  {
  }

  /** Two consecutive group clicks restore a defined `open`; from an unset
      `open` they leave it closed. Both clicks announce the group's value; a
      listener sees the group opened by one of them and closed by the other,
      and sees the original state again after the second. */
  lemma GroupClickTwice(n: Node)
    ensures n.open.Some? ==> ClickGroup(ClickGroup(n).node).node == n
    ensures n.open == None ==> ClickGroup(ClickGroup(n).node).node == n.(open := Some(false))
    ensures var first := ClickGroup(n).events[0];
      var second := ClickGroup(ClickGroup(n).node).events[0];
      && first.name == second.name == SelectGroup
      && first.value == second.value == n.value
      && first.openSeen == Some(!IsOpen(n))
      && second.openSeen == Some(IsOpen(n))
  {
  }

  /** `custom` has no effect on a group click: flipping it changes nothing in
      the outcome except the `custom` field itself. */
  lemma GroupClickIgnoresCustom(n: Node, c: bool)
    ensures ClickGroup(n.(custom := c)).node == ClickGroup(n).node.(custom := c)
    ensures ClickGroup(n.(custom := c)).events == ClickGroup(n).events
    ensures ClickGroup(n.(custom := c)).stopped == ClickGroup(n).stopped
  {
  }

  /** An item announces a selection exactly when it is selectable; an item
      without a truthy value, or a disabled one, swallows the click. */
  lemma ItemClickIff(n: Node)
    requires RoleOf(n) == Item
    ensures Click(n).events == [Event(SelectItem, n.value, n.open)] <==> Truthy(n.value) && !n.disabled
    ensures Click(n).events == [] <==> !Truthy(n.value) || n.disabled
    ensures Click(n).stopped <==> !Truthy(n.value) || n.disabled
    ensures Click(n).node == n
  {
  }

  /** Of all roles, only a group changes on a click, and only its `open`
      flag; only an item can stop a click from propagating. */
  lemma ClickChangesOnlyGroupOpen(n: Node)
    ensures Click(n).node == n.(open := Click(n).node.open)
    ensures Click(n).node != n ==> RoleOf(n) == Group
    ensures Click(n).stopped ==> RoleOf(n) == Item
  {
  }

  /** A constructed node has no role: it renders nothing, attachment leaves
      it unset, and clicking it does nothing. */
  lemma FreshNodeIsInert()
    ensures Render(New()) == Rendered(Empty, New())
    ensures Connect(New()).open == None
    ensures Click(New()) == Outcome(New(), [], false)
  {
  }

  /** The nested scenario of a light container holding one group holding one
      item, all carrying the same object value: attaching and clicking the
      group announces it and opens it; clicking the item announces it; the
      same item disabled announces nothing and stops the click. */
  lemma NestedScenario()
    ensures var container := Connect(New().(isList := true, value := Obj(1)));
      container.open == Some(true) && Render(container).shape == ContainerShape(LightTheme)
    ensures var group := Connect(New().(isGroup := true, value := Obj(1)));
      && Click(group).events == [Event(SelectGroup, Obj(1), Some(true))]
      && Click(group).node.open == Some(true)
      && Render(Click(group).node).shape == GroupRow(OpenClass, true)
    ensures var item := Connect(New().(isItem := true, value := Obj(1)));
      Click(item) == Outcome(item, [Event(SelectItem, Obj(1), None)], false)
    ensures var item := Connect(New().(isItem := true, value := Obj(1), disabled := true));
      Click(item) == Outcome(item, [], true)
  {
  }
}

=== FILE: listbox_trace.dfy ===
/** A node's life as the host sees it: a sequence of attachments and clicks,
    each handled completely before the next, accumulating the notifications
    the node dispatches. */
module ListboxTrace {
  import opened JsValues
  import opened ListboxNode

  /** What can happen to a node from outside: it is attached to the
      document (`connectedCallback`, whose call into the framework renders
      the node and binds its click handlers), or the user clicks where its
      bound element is. Before the first attachment nothing is rendered, so
      there is nothing to click and a click does nothing. */
  datatype Action = Attach | ClickIt

  /** The node after a run, every event it dispatched in order, and how many
      clicks it swallowed by stopping their propagation. */
  datatype Trace = Trace(node: Node, events: seq<Event>, swallowed: nat)

  /** Attachment initialises `open` and then renders, which lets a label or
      footer claim its slot; a click runs the bound handler once the node has
      been attached, and does nothing before. */
  function Step(n: Node, attached: bool, a: Action): Outcome {
    match a
    case Attach => Outcome(Render(Connect(n)).node, [], false)
    case ClickIt => if attached then Click(n) else Outcome(n, [], false)
  }

  /** Whether the node is attached after an action. */
  function AttachedAfter(attached: bool, a: Action): bool {
    attached || a == Attach
  }

  /** The `slot` attribute a node carries once it has been rendered. */
  function RenderedSlot(n: Node): Option<string> {
    match RoleOf(n)
    case Label => Some(LabelSlot)
    case Footer => Some(FooterSlot)
    case _ => n.slot
  }

  /** What the host configures on a node: everything but the two fields the
      node itself writes, `open` and `slot`, which are blanked here. */
  function Configuration(n: Node): Node {
    n.(open := None, slot := None)
  }

  /** One action changes at most `open` and `slot`, never the role; only an
      attachment changes `slot`, to the one rendering assigns. */
  lemma StepKeepsConfiguration(n: Node, attached: bool, a: Action)
    ensures Configuration(Step(n, attached, a).node) == Configuration(n)
    ensures RoleOf(Step(n, attached, a).node) == RoleOf(n)
    ensures Step(n, attached, a).node.slot == if a == Attach then RenderedSlot(n) else n.slot
    ensures RenderedSlot(Step(n, attached, a).node) == RenderedSlot(n)
  {
    var m := Step(n, attached, a).node;
    if a == Attach {
      AttachKeepsConfiguration(n);
    } else if attached {
      ClickKeepsConfiguration(n);
    } else {
      assert m == n;
    }
  }

  /** Attachment followed by its render changes only `open` and `slot`. */
  lemma AttachKeepsConfiguration(n: Node)
    ensures var m := Render(Connect(n)).node;
      m == n.(open := m.open, slot := m.slot) && m.slot == RenderedSlot(n)
  {
    var c := Connect(n);
    var m := Render(c).node;
    assert c == n.(open := c.open);
    assert RoleOf(c) == RoleOf(n);
    assert m == c.(slot := m.slot);
  }

  /** A click on the attached node changes only `open`. */
  lemma ClickKeepsConfiguration(n: Node)
    ensures Click(n).node == n.(open := Click(n).node.open)
  {
  }

  /** The actions applied in order to a node, `attached` saying whether it
      is already in the document; a constructed node starts detached. */
  function Run(n: Node, attached: bool, actions: seq<Action>): Trace
    decreases |actions|
  {
    if actions == [] then Trace(n, [], 0)
    else
      var o := Step(n, attached, actions[0]);
      var t := Run(o.node, AttachedAfter(attached, actions[0]), actions[1..]);
      Trace(t.node, o.events + t.events, (if o.stopped then 1 else 0) + t.swallowed)
  }

  /** Number of clicks in a run that reach a rendered node: those made while
      it is attached. */
  function LiveClicks(attached: bool, actions: seq<Action>): nat
    decreases |actions|
  {
    if actions == [] then 0
    else
      (if attached && actions[0] == ClickIt then 1 else 0)
      + LiveClicks(AttachedAfter(attached, actions[0]), actions[1..])
  }

  predicate Odd(k: nat) {
    k % 2 == 1
  }

  /** The event name a role's bound handler dispatches, if any. */
  function EventName(r: Role): Option<string> {
    match r
    case List => Some(SelectHeader)
    case Group => Some(SelectGroup)
    case Item => Some(SelectItem)
    case Label => None
    case Footer => None
    case NoRole => None
  }

  /** No run changes anything about a node except `open` and `slot`: its role
      flags, value, disabled, selected, custom and theme stay as the host set
      them, and `slot` changes only on attachment, to the label or footer slot
      that rendering assigns. */
  lemma {:induction false} RunKeepsConfiguration(n: Node, attached: bool, actions: seq<Action>)
    ensures Configuration(Run(n, attached, actions).node) == Configuration(n)
    ensures RoleOf(Run(n, attached, actions).node) == RoleOf(n)
    ensures Run(n, attached, actions).node.slot == if Attach in actions then RenderedSlot(n) else n.slot
    decreases |actions|
  {
    if actions != [] {
      var a := actions[0];
      var o := Step(n, attached, a);
      StepKeepsConfiguration(n, attached, a);
      RunKeepsConfiguration(o.node, AttachedAfter(attached, a), actions[1..]);
      var m := Run(o.node, AttachedAfter(attached, a), actions[1..]).node;
      assert Run(n, attached, actions).node == m;
      assert Attach in actions <==> a == Attach || Attach in actions[1..] by {
        assert actions == [a] + actions[1..];
      }
    }
  }

  /** One action dispatches only its role's event, carrying the node's value. */
  lemma StepEvents(n: Node, attached: bool, a: Action)
    ensures forall e :: e in Step(n, attached, a).events ==>
      Some(e.name) == EventName(RoleOf(n)) && e.value == n.value
    ensures EventName(RoleOf(n)) == None ==> Step(n, attached, a).events == []
  {
  }

  /** Every event of a run is the one the node's role dispatches, and it
      carries the node's own value; labels, footers and role-less nodes
      dispatch nothing. */
  lemma {:induction false} RunEventsCarryOwnValue(n: Node, attached: bool, actions: seq<Action>)
    ensures forall e :: e in Run(n, attached, actions).events ==>
      Some(e.name) == EventName(RoleOf(n)) && e.value == n.value
    ensures EventName(RoleOf(n)) == None ==> Run(n, attached, actions).events == []
    decreases |actions|
  {
    if actions != [] {
      var a := actions[0];
      var o := Step(n, attached, a);
      StepEvents(n, attached, a);
      StepKeepsConfiguration(n, attached, a);
      RunEventsCarryOwnValue(o.node, AttachedAfter(attached, a), actions[1..]);
      var rest := Run(o.node, AttachedAfter(attached, a), actions[1..]).events;
      assert Run(n, attached, actions).events == o.events + rest;
      forall e | e in o.events + rest
        ensures Some(e.name) == EventName(RoleOf(n)) && e.value == n.value
      {
        if e !in o.events {
          assert e in rest;
        }
      }
    }
  }

  /** One action's event and swallow counts, by role. */
  lemma StepCount(n: Node, attached: bool, a: Action)
    ensures RoleOf(n) == List || RoleOf(n) == Group || (RoleOf(n) == Item && Selectable(n)) ==>
      |Step(n, attached, a).events| == (if attached && a == ClickIt then 1 else 0)
      && !Step(n, attached, a).stopped
    ensures RoleOf(n) == Item && !Selectable(n) ==>
      |Step(n, attached, a).events| == 0 && Step(n, attached, a).stopped == (attached && a == ClickIt)
  {
  }

  /** How many events a run dispatches: one per click on the attached node
      for a container or a group; the same for a selectable item, while an
      unselectable item dispatches none and swallows every such click. */
  lemma {:induction false} RunEventCount(n: Node, attached: bool, actions: seq<Action>)
    ensures RoleOf(n) == List || RoleOf(n) == Group ==>
      |Run(n, attached, actions).events| == LiveClicks(attached, actions)
      && Run(n, attached, actions).swallowed == 0
    ensures RoleOf(n) == Item && Selectable(n) ==>
      |Run(n, attached, actions).events| == LiveClicks(attached, actions)
      && Run(n, attached, actions).swallowed == 0
    ensures RoleOf(n) == Item && !Selectable(n) ==>
      |Run(n, attached, actions).events| == 0
      && Run(n, attached, actions).swallowed == LiveClicks(attached, actions)
    decreases |actions|
  {
    if actions != [] {
      var a := actions[0];
      var o := Step(n, attached, a);
      StepCount(n, attached, a);
      StepKeepsConfiguration(n, attached, a);
      assert Selectable(o.node) == Selectable(n);
      RunEventCount(o.node, AttachedAfter(attached, a), actions[1..]);
    }
  }

  /** A group's `open` after a run: a group never attached keeps what the
      host set; otherwise it is its initial truthiness flipped once per click
      on the attached node, however clicks and attachments interleave. An
      attached group always has `open` defined, since its attachment did so. */
  lemma {:induction false} GroupOpenParity(n: Node, attached: bool, actions: seq<Action>)
    requires RoleOf(n) == Group
    requires attached ==> n.open.Some?
    ensures Run(n, attached, actions).node.open ==
      if !attached && Attach !in actions then n.open
      else Some(IsOpen(n) != Odd(LiveClicks(attached, actions)))
    decreases |actions|
  {
    if actions != [] {
      var a := actions[0];
      var o := Step(n, attached, a);
      StepKeepsConfiguration(n, attached, a);
      assert AttachedAfter(attached, a) ==> o.node.open.Some?;
      GroupOpenParity(o.node, AttachedAfter(attached, a), actions[1..]);
      assert Attach in actions <==> a == Attach || Attach in actions[1..] by {
        assert actions == [a] + actions[1..];
      }
    }
  }

  /** One action on a node of any role but group: a click keeps `open`, an
      attachment makes it what attachment makes of it, and either way a
      later attachment would make it the same. */
  lemma StepOpenNonGroup(n: Node, attached: bool, a: Action)
    requires RoleOf(n) != Group
    ensures Step(n, attached, a).node.open == if a == Attach then Connect(n).open else n.open
    ensures Connect(Step(n, attached, a).node).open == Connect(n).open
    ensures RoleOf(Step(n, attached, a).node) != Group
  {
    StepKeepsConfiguration(n, attached, a);
    if a == ClickIt {
      assert Step(n, attached, a).node == n;
    } else {
      assert Step(n, attached, a).node.open == Connect(n).open;
    }
  }

  /** For every other role, clicks never touch `open`: after a run it is
      what attachment made of it, or what the host set if never attached. */
  lemma {:induction false} NonGroupOpenFixedByAttach(n: Node, attached: bool, actions: seq<Action>)
    requires RoleOf(n) != Group
    ensures Run(n, attached, actions).node.open ==
      if Attach in actions then Connect(n).open else n.open
    decreases |actions|
  {
    if actions != [] {
      var a := actions[0];
      var o := Step(n, attached, a);
      StepOpenNonGroup(n, attached, a);
      NonGroupOpenFixedByAttach(o.node, AttachedAfter(attached, a), actions[1..]);
      assert Run(n, attached, actions).node == Run(o.node, AttachedAfter(attached, a), actions[1..]).node;
      assert Attach in actions <==> a == Attach || Attach in actions[1..] by {
        assert actions == [a] + actions[1..];
      }
    }
  }

  /** A click on a group that has never been attached reaches nothing: its
      `open` stays unset and no event is dispatched. After the attachment the
      same click opens the group and announces it. */
  lemma ClickBeforeAttachIsIgnored()
    ensures var g := New().(isGroup := true, value := Obj(1));
      Run(g, false, [ClickIt]) == Trace(g, [], 0)
    ensures var g := New().(isGroup := true, value := Obj(1));
      && Run(g, false, [Attach, ClickIt]).node.open == Some(true)
      && Run(g, false, [Attach, ClickIt]).events == [Event(SelectGroup, Obj(1), Some(true))]
  {
  }
}
